=== FILE: README.md ===
# LZ77 compressor model

A Dafny model of the LZ77 compressor declared in `include/lz77.h`
(namespace `LZ77`). The compressor turns a file's bytes into
`<offset, length, codeword>` triples by sliding-window matching, codes the
offsets and lengths with two Huffman tables, and writes a bit string made
of the offset table header, the length table header and the coded
triples. The decoder parses both headers, reads the triples back and
rebuilds the text by copying back-references.

The model states the behaviour the header's declarations, doc comments
and class layout promise; where they leave a choice open, the model's own
choice is named under "Left out":

- `errors.dfy` (`Errors`): the decoder's failure kinds and a `Result` type.
- `bin_string.dfy` (`BinString`): `IntToBinString` / `BinStringToInt`,
  fixed-width '0'/'1' strings, most significant bit first, and the
  fixed-width field reader built on them.
- `triples.dfy` (`Triples`): `triple_struct`, the window constants
  `search_buffer_size_ = 2048` and `look_ahead_buffer_size_ = 255`.
- `matcher.dfy` (`Matcher`): the search window and
  `UpdateSearchBufferTree`, and the matcher (`LargestMatch`,
  `SearchMatching`, `MatchPattern`) specified by what it returns: the
  longest back-reference into the search buffer equal to a prefix of the
  look-ahead buffer, the most recent on a tie (the tie-break is this
  model's choice; see "Left out").
- `encoder.dfy` (`Encoder`): `Encode`, the cursor walk emitting one triple
  per step and advancing by `length + 1`; the offset and length frequency
  tables the Huffman tables are built over.
- `decoder.dfy` (`Decoder`): `DecompressLZ77Code`, forward symbol-by-symbol
  copy (overlap allowed) then the codeword; an offset beyond the output so
  far, or a non-empty copy with offset 0, is an `InvalidBackReference`.
- `code_tables.dfy` (`CodeTables`): code tables as (value, code) entries,
  the decoder's code-to-symbol map, and reading one code off the bits.
- `framing.dfy` (`Framing`): header layout (16-bit count, then 8-bit
  value, 8-bit code size, code per entry) and content layout (offset code,
  length code, 8-bit symbol per triple), with their parsers.
- `pipeline.dfy` (`Pipeline`): `CompressToFile` and `Decode` end to end.

Bits are modelled as `string` values over '0' and '1', as the header's own
code maps (`std::map<std::string, std::string>`) and `IntToBinString` use
them. Symbols are bytes (`Byte`, 0..255); the source's one-character
`codeword` string is a `Byte`. The Huffman tables are inputs of
`CompressToFile`: the model does not build them, it requires them to be
prefix-free and to hold a code for every offset and length emitted
(`Pipeline.CompressibleTables`). It writes a file for every input that has
such tables, whatever its offsets.

The header's doc comment gives each table entry's value one byte
(`include/lz77.h:237`, `include/lz77.h:241`), while offsets reach 2048
(`include/lz77.h:106`). The header round trip therefore requires values
below 256 (`Framing.HeaderEncodable`), and so does the end-to-end round
trip for the offset table (`Pipeline.UsableTables`), while compression
itself does not; `Framing.HeaderValueFieldIsOneByte` shows an
offset of 256 reading back as 0 under the model's `IntToBinString`, which
keeps only the low bits; that truncation is this model's reading of
`IntToBinString` for oversize values.

## Model

| member | source | states |
|---|---|---|
| BinString.IntToBinString | include/lz77.h:332-337 | the result has exactly `string_size` characters, each '0' or '1'; `IntToBinStringLeading` fixes the most-significant-first order |
| BinString.BinStringToInt | include/lz77.h:339-344 | the value of an n-character string is below 2^n; `BinStringToIntLeading` gives the first character the highest weight |
| BinString.IntToBinStringRoundTrip | include/lz77.h:332-344 | for 0 <= v < 2^n, converting v to n bits and back gives v |
| BinString.BinStringToIntRoundTrip | include/lz77.h:332-344 | for any '0'/'1' string, converting to an int and back at the same width gives the string |
| BinString.BinStringToIntLeading | include/lz77.h:339-344 | the first character is the most significant bit: a '1' in front of an n-character string adds 2^n to its value, a '0' adds nothing |
| BinString.IntToBinStringLeading | include/lz77.h:332-337 | the first character written at width n is bit n - 1 of the value, so fields are laid out most significant bit first |
| BinString.IntToBinStringTruncates | include/lz77.h:332-337 | a value too wide for the field is written as its value modulo 2^n |
| BinString.ReadInt | include/lz77.h:339-344 | reading an n-bit field succeeds exactly when n bits remain, yields a value below 2^n, and consumes exactly n bits |
| BinString.ReadIntRoundTrip | include/lz77.h:332-344 | an n-bit field written in front of other bits reads back as its value and leaves exactly those bits |
| Matcher.UpdateSearchBufferTree | include/lz77.h:191-198 | sliding keeps the search buffer within 2048 symbols, advances the cursor by the amount consumed, never moves the window start back, and once full slides the start by the same amount |
| Matcher.LookAheadBuffer | include/lz77.h:108-113 | the look-ahead buffer is the next symbols from the cursor, at most 255 of them, fewer only at the end of input |
| Matcher.MatchIsLookAheadPrefix | include/lz77.h:200-205 | a match's copied symbols equal a prefix of the look-ahead buffer |
| Matcher.LargestMatch | include/lz77.h:214-219 | the length returned for a candidate is a genuine match that leaves a codeword and stops either at the look-ahead cap or at the first symbol that differs |
| Matcher.LargestMatchIsLongest | include/lz77.h:214-219 | no match from the same candidate is longer than the length returned for it |
| Matcher.SearchMatching | include/lz77.h:207-212 | the match found among candidates 1..limit back is a genuine match within that range; offset 0 exactly when the length is 0 |
| Matcher.SearchMatchingIsLongest | include/lz77.h:207-212 | every candidate in 1..limit matches at most as long as the result, and every candidate closer than the result strictly shorter |
| Matcher.MatchPattern | include/lz77.h:200-205 | the match at the cursor reaches back no further than the search buffer (at most 2048), is at most 255 long, never reads past the end of input and is genuine |
| Matcher.MatchPatternIsLongest | include/lz77.h:200-205 | no back-reference into the search buffer matches longer than the match found, and none more recent matches as long |
| Matcher.AlternatingInputMatch | include/lz77.h:200-205 | on "abababab" at cursor 2 the matcher reports the overlapping 5-symbol match from 2 back, not a shorter one |
| Encoder.EncodeFromParses | include/lz77.h:184-198 | from any window position, the encoder's triples are one valid step after another and end exactly at the end of the input |
| Encoder.GreedyParseSplits | include/lz77.h:184-189 | a greedy parse keeps every triple within the bounds, reproduces the input and picks the longest match at every position |
| Encoder.NextTriple | include/lz77.h:184-205 | the triple emitted at the cursor keeps the triple bounds, copies a genuine match ending before the last symbol, carries the symbol after the match as its codeword, and is the longest match in the window |
| Encoder.PatternIsLongestAt | include/lz77.h:200-205 | a triple carrying the matcher's offset and length is the longest match at the cursor, most recent on a tie |
| Encoder.Encode | include/lz77.h:184-189 | every triple has 0 <= offset <= 2048, 0 <= length <= 255 and offset 0 exactly when length 0; each triple's match is genuine and its codeword is the next symbol; lengths plus one per triple sum to the input length; each match is the longest in its window; no triples exactly for empty input |
| Encoder.ExplainsConsumes | include/lz77.h:122-127 | triples explaining the input from a cursor advance it by length + 1 each and end exactly at the end of input |
| Encoder.GreedyOnRun | include/lz77.h:184-189 | on a run of one repeated symbol, a greedy parse from cursor >= 1 needs at most one triple per 256 symbols |
| Encoder.RunCompresses | include/lz77.h:184-189 | n copies of one symbol encode to at most 2 + (n - 1) / 256 triples |
| Encoder.RunParseCompresses | include/lz77.h:184-189 | any greedy parse of a run of n symbols has at most 2 + (n - 1) / 256 triples |
| Encoder.Frequencies | include/lz77.h:228-233 | the frequency map's keys are exactly the values present and each count is the value's number of occurrences |
| Encoder.OffsetFrequencies | include/lz77.h:76-80 | the offset table's keys are exactly the offsets among the triples, and each count is that offset's number of occurrences |
| Encoder.EmittedOffsetsCounted | include/lz77.h:76-80 | every emitted offset has a positive count and every counted offset was emitted |
| Encoder.LengthFrequencies | include/lz77.h:82-86 | the length table's keys are exactly the lengths among the triples, and each count is that length's number of occurrences |
| Encoder.EmittedLengthsCounted | include/lz77.h:82-86 | every emitted length has a positive count and every counted length was emitted |
| Decoder.CopyBack | include/lz77.h:316-322 | copying keeps the output so far and appends `length` symbols, each equal to the symbol `offset` places before it, so overlapping references repeat just-written symbols |
| Decoder.DecompressFrom | include/lz77.h:316-322 | decoding succeeds exactly when no triple points before the start of the output and no non-empty copy has offset 0, fails only with InvalidBackReference, and extends the output by lengths plus one per triple |
| Decoder.DecompressLZ77Code | include/lz77.h:316-322 | decoding from empty output succeeds exactly when every reference is in range and no non-empty copy has offset 0, and yields lengths plus one per triple symbols |
| Decoder.CopyBackReproduces | include/lz77.h:316-322 | copying a genuine match back from the decoded prefix yields exactly the matched input symbols |
| Decoder.DecompressExplained | include/lz77.h:316-322 | any triple sequence that explains the rest of the input decodes, after the prefix, to the whole input |
| Decoder.EncodeDecodeRoundTrip | include/lz77.h:184-189 | decoding the encoder's triples gives back exactly the input |
| CodeTables.CodeToSymbol | include/lz77.h:286-298 | every table code is a key of the decoder map and every key maps to the value of an entry with that code |
| CodeTables.CodeToSymbolInverts | include/lz77.h:286-298 | in a prefix-free table the decoder map sends each entry's code to that entry's value |
| CodeTables.ReadCode | include/lz77.h:286-298 | reading a code fails with UnknownCode exactly when no prefix of the bits is a code; otherwise it returns the value of the shortest such prefix and the bits after it |
| CodeTables.ReadCodeOf | include/lz77.h:286-298 | in a prefix-free table, reading the code of v in front of other bits gives v and exactly those bits |
| Framing.SerializeTable | include/lz77.h:234-241 | a table header starts with the 16-bit entry count |
| Framing.ParseEntries | include/lz77.h:234-241 | parsing `count` header entries yields exactly `count` entries with one-byte values and code sizes, or CorruptHeader |
| Framing.ParseEntriesCorrupt | include/lz77.h:234-241 | with an entry still due, bits too short for its two one-byte fields, or a size field declaring a code longer than the bits left, are a corrupt header |
| Framing.ParseTable | include/lz77.h:234-241 | a header shorter than 16 bits is corrupt; otherwise it fails exactly when the entries the 16-bit count announces do not parse, and then only as CorruptHeader; a parsed table has exactly as many entries as the count says, fits the header's field widths, and the bits after it are a suffix of the input |
| Framing.EntriesRoundTrip | include/lz77.h:237-241 | serialised header entries parse back as the same entries, leaving the bits after them |
| Framing.HeaderRoundTrip | include/lz77.h:234-241 | for fewer than 65536 entries with values and code sizes below 256, parsing a serialised header gives the same value-to-code entries in order and leaves exactly the bits after it |
| Framing.HeaderValueFieldIsOneByte | include/lz77.h:237-241 | with a one-byte value field, an entry for offset 256 reads back as an entry for offset 0 |
| Framing.ParseTriples | include/lz77.h:243-244 | empty content parses as no triples; bits that start with no offset code are UnknownCode; failures are UnknownCode or TruncatedContent; every parsed offset and length is a value of its table |
| Framing.TripleRoundTrip | include/lz77.h:243-244 | one serialised triple in front of other bits parses back as that triple followed by what those bits parse to, and fails with their error when they fail |
| Framing.ShortContentFails | include/lz77.h:243-244 | between one and nine bits can never complete a triple (one-bit codes plus the 8-bit symbol), so they fail to parse |
| Framing.UnknownLengthCodeFails | include/lz77.h:243-244 | a readable offset code followed by bits that start with no length code is UnknownCode |
| Framing.ShortLiteralFails | include/lz77.h:243-244 | both codes readable but fewer than eight bits left for the symbol is TruncatedContent |
| Framing.TriplesThenFailure | include/lz77.h:243-244 | serialised triples in front of bits that fail to parse still fail: no partial result is returned |
| Framing.PaddedContentFails | include/lz77.h:243-244 | serialised triples followed by one to nine extra bits fail to parse instead of returning the triples read so far |
| Framing.ContentRoundTrip | include/lz77.h:243-244 | with prefix-free tables covering every offset and length, the content section parses back as exactly the serialised triples, ending at the last triple |
| Pipeline.CompressToFile | include/lz77.h:228-247 | for any input and any prefix-free tables covering its offsets and lengths, the compressed file is a bit string that starts with the offset table's 16-bit entry count, has the length table's 16-bit count right after the offset header, and is at least 32 bits plus ten bits per triple long |
| Pipeline.Decode | include/lz77.h:309-314 | bits too short for the two header counts are a corrupt header, and so is an offset or length header that fails to parse, whatever follows it |
| Pipeline.CompressDecodeRoundTrip | include/lz77.h:228-247 | decoding the compressed file gives back exactly the input, given usable code tables |
| Pipeline.HeadersThenFailingContent | include/lz77.h:228-247 | two readable headers followed by content that does not parse do not decode |
| Pipeline.PaddedFileFails | include/lz77.h:228-247 | the compressed bit string followed by one to nine padding bits does not decode |
| Pipeline.EmptyInput | include/lz77.h:228-247 | empty input compresses to two zero-count headers and decodes to empty output |

## Left out

- Huffman table construction (frequency merging, tie-breaking): the code tables are inputs, required to be prefix-free and to cover every emitted offset and length.
- The `std::multiset` substring index, `sequence_position_`, `nodes_to_exclude` and `SearchBestMatch`: container internals; the matcher is specified by the match it must return and computed by scanning every offset in the window.
- `FillBuffer`, `DecompressFromFile`, `DecompressToFile` and the file writing of `CompressToFile`: file I/O. The model works on the input symbols and on the bit string before it is padded to whole bytes. The model's `Decode` rejects any bit string with bits left after the last triple (`Pipeline.PaddedFileFails`), so the round trip covers only the unpadded bits; how the source skips the padding of a byte-rounded file is not modelled.
- `FlushProbabilityTableAsCSV`, `ComputeProbabilityTable`, `CountSymbol`, `GetSymbolTable`, `entropy_`, `average_rate_`: floating-point statistics that are not part of the format.
- `CountCharacters`, `HowManyCharacters`, `CharactersQuantity`: counters with no stated contract.
- `Decoder::Decode`'s `option` argument: its meaning is not stated; `Pipeline.Decode` models the decompression path only.
- BinString.IntToBinString: negative values and the 32-bit `int` width are not modelled; values are naturals, and keeping the low bits of oversize values is this model's reading of `IntToBinString`.
- BinString.BinStringToInt: characters other than '0'/'1' read as 0, and the result is an unbounded natural rather than the source's 32-bit `int`; every caller passes bit strings of at most 16 characters, so the 32-bit result never overflows.
- Framing.HeaderRoundTrip: requires entry values below 256 because the header stores them in one byte, although offsets go up to 2048.
- Pipeline.CompressDecodeRoundTrip: holds only for inputs whose offsets all fit the one-byte header value field, for the same reason.
- Matcher.MatchPattern: among equally long matches the model returns the most recent one. The source searches an ordered multiset and compares only the look-ahead buffer's neighbours in it, so its offset on a tie can differ. The length is the same, but the offset written to the file and its table entry may differ.
- Decoder.DecompressFrom: a triple with offset 0 and a positive length copies from nowhere. The source does not say what happens, and the model reports it as `InvalidBackReference`. The encoder never emits such a triple.
- A content section that ends with fewer than eight bits for a literal is reported as `TruncatedContent` (`Framing.ShortLiteralFails`), a failure kind the header does not name.

=== FILE: bin_string.dfy ===
/**
 * Fixed-width conversion between naturals and strings of '0'/'1'
 * characters, most significant bit first. Every header field and every
 * literal of the compressed format goes through these two functions.
 */
module BinString {
  import opened Errors

  /** A value read from the front of a bit string, and the bits after it. */
  datatype Read<+T> = Read(value: T, rest: string)

  function Pow2(n: nat): (r: nat)
    ensures r >= 1
  {
    if n == 0 then 1 else 2 * Pow2(n - 1)
  }

  predicate IsBitString(s: string) {
    forall i :: 0 <= i < |s| ==> s[i] == '0' || s[i] == '1'
  }

  function BitChar(b: nat): char
    requires b < 2
  {
    if b == 1 then '1' else '0'
  }

  /**
   * The `size` low-order bits of `value`, most significant first. A value
   * of `size` bits or more keeps only its low `size` bits.
   */
  function IntToBinString(value: nat, size: nat): (s: string)
    ensures |s| == size
    ensures IsBitString(s)
  {
    if size == 0 then "" else IntToBinString(value / 2, size - 1) + [BitChar(value % 2)]
  }

  /**
   * The number a bit string denotes, most significant bit first. Every
   * caller passes a string of '0'/'1'; any other character reads as 0.
   */
  function BinStringToInt(s: string): (v: nat)
    ensures v < Pow2(|s|)
  {
    if |s| == 0 then 0
    else 2 * BinStringToInt(s[..|s| - 1]) + (if s[|s| - 1] == '1' then 1 else 0)
  }

  /**
   * Read a `size`-bit number from the front of `bits`, failing with
   * `short` when fewer than `size` bits remain.
   */
  function ReadInt(bits: string, size: nat, short: Error): (r: Result<Read<nat>>)
    ensures r.Success? <==> size <= |bits|
    ensures r.Failure? ==> r.error == short
    ensures r.Success? ==> r.value.value < Pow2(size) && r.value.rest == bits[size..]
    ensures r.Success? && IsBitString(bits) ==> IntToBinString(r.value.value, size) == bits[..size]
  {
    if |bits| < size then Failure(short)
    else
      PrefixRoundTrip(bits, size);
      Success(Read(BinStringToInt(bits[..size]), bits[size..]))
  }

  lemma PrefixRoundTrip(bits: string, size: nat)
    requires size <= |bits|
    ensures IsBitString(bits) ==> IntToBinString(BinStringToInt(bits[..size]), size) == bits[..size]
  {
    if IsBitString(bits) {
      BinStringToIntRoundTrip(bits[..size]);
    }
  }

  /** A number written in `size` bits in front of `rest` reads back as itself. */
  lemma ReadIntRoundTrip(value: nat, size: nat, rest: string, short: Error)
    requires value < Pow2(size)
    ensures ReadInt(IntToBinString(value, size) + rest, size, short) == Success(Read(value, rest))
  {
    var bits := IntToBinString(value, size) + rest;
    assert bits[..size] == IntToBinString(value, size);
    assert bits[size..] == rest;
    IntToBinStringRoundTrip(value, size);
  }

  /** Reading back a value that fits in `size` bits gives the value. */
  lemma {:induction false} IntToBinStringRoundTrip(value: nat, size: nat)
    requires value < Pow2(size)
    ensures BinStringToInt(IntToBinString(value, size)) == value
  {
    if size > 0 {
      var s := IntToBinString(value, size);
      IntToBinStringRoundTrip(value / 2, size - 1);
      assert s[..|s| - 1] == IntToBinString(value / 2, size - 1);
    }
  }

  /** Writing back the value of a bit string gives the string. */
  lemma {:induction false} BinStringToIntRoundTrip(s: string)
    requires IsBitString(s)
    ensures IntToBinString(BinStringToInt(s), |s|) == s
  {
    if |s| > 0 {
      var p := s[..|s| - 1];
      BinStringToIntRoundTrip(p);
      var v := BinStringToInt(s);
      assert v / 2 == BinStringToInt(p);
      assert s == p + [s[|s| - 1]];
    }
  }

  /**
   * The first character of a bit string carries the highest weight: a '1'
   * in front of `s` adds 2^|s|, a '0' adds nothing.
   */
  lemma {:induction false} BinStringToIntLeading(c: char, s: string)
    ensures BinStringToInt([c] + s) == (if c == '1' then Pow2(|s|) else 0) + BinStringToInt(s)
    decreases |s|
  {
    if |s| > 0 {
      var p := s[..|s| - 1];
      BinStringToIntLeading(c, p);
      assert ([c] + s)[..|s|] == [c] + p;
    }
  }

  /** The first character written is bit `size - 1` of the value. */
  lemma {:induction false} IntToBinStringLeading(value: nat, size: nat)
    requires size > 0
    ensures IntToBinString(value, size)[0] == BitChar(value / Pow2(size - 1) % 2)
  {
    if size > 1 {
      IntToBinStringLeading(value / 2, size - 1);
      DivModStep(value, Pow2(size - 2));
    }
  }

  /** Conversion keeps the value modulo 2^size: wider values are cut. */
  lemma {:induction false} IntToBinStringTruncates(value: nat, size: nat)
    ensures BinStringToInt(IntToBinString(value, size)) == value % Pow2(size)
  {
    if size > 0 {
      var s := IntToBinString(value, size);
      IntToBinStringTruncates(value / 2, size - 1);
      assert s[..|s| - 1] == IntToBinString(value / 2, size - 1);
      DivModStep(value, Pow2(size - 1));
    }
  }

  /** (v / 2) % m doubled, plus the low bit, is v % (2 * m); and (v / 2) / m is v / (2 * m). */
  lemma DivModStep(v: nat, m: nat)
    requires m >= 1
    ensures 2 * ((v / 2) % m) + v % 2 == v % (2 * m)
    ensures (v / 2) / m == v / (2 * m)
  {
    var q := (v / 2) / m;
    var r := (v / 2) % m;
    assert v / 2 == q * m + r;
    assert v == 2 * (v / 2) + v % 2;
    assert v == q * (2 * m) + (2 * r + v % 2);
    ModUnique(v, 2 * m, q, 2 * r + v % 2);
  }

  /** The remainder is the unique r in [0, d) with v == q * d + r, and q is the quotient. */
  lemma ModUnique(v: nat, d: nat, q: nat, r: nat)
    requires d >= 1 && r < d && v == q * d + r
    ensures v % d == r && v / d == q
  {
    var q' := v / d;
    var r' := v % d;
    assert v == q' * d + r';
    assert (q' - q) * d == r - r' by {
      assert q' * d - q * d == (q' - q) * d;
    }
    MulBounded(q' - q, d, r - r');
  }

  /** The only multiple of d strictly between -d and d is 0. */
  lemma MulBounded(k: int, d: nat, x: int)
    requires d >= 1 && k * d == x && x + d > 0 && x < d
    ensures k == 0
  {
    if k >= 1 {
      MulAtLeast(k, d);
    } else if k <= -1 {
      MulAtLeast(-k, d);
    }
  }

  lemma MulAtLeast(k: int, d: nat)
    requires k >= 1
    ensures k * d >= d
  {
    assert k * d == (k - 1) * d + d;
  }
}

=== FILE: code_tables.dfy ===
/**
 * Huffman code tables as the compressed file carries them: a list of
 * (value, code) entries, one per offset or length value. How the codes
 * are chosen is not part of this model; the decoder only relies on the
 * table being prefix-free.
 */
module CodeTables {
  import opened Errors
  import opened BinString

  datatype CodeEntry = CodeEntry(value: nat, code: string)

  type CodeTable = seq<CodeEntry>

  predicate IsPrefix(a: string, b: string) {
    |a| <= |b| && b[..|a|] == a
  }

  /**
   * What the decoder needs of a table: non-empty bit-string codes, one
   * entry per value, and no code a prefix of another entry's code.
   */
  predicate ValidCodeTable(t: CodeTable) {
    && (forall i :: 0 <= i < |t| ==> |t[i].code| > 0 && IsBitString(t[i].code))
    && (forall i, j :: 0 <= i < |t| && 0 <= j < |t| && i != j ==>
          t[i].value != t[j].value && !IsPrefix(t[i].code, t[j].code))
  }

  predicate HasValue(t: CodeTable, v: nat) {
    exists i :: 0 <= i < |t| && t[i].value == v
  }

  /** Position of the first entry for `v`. */
  function IndexOf(t: CodeTable, v: nat): (i: nat)
    requires HasValue(t, v)
    ensures i < |t| && t[i].value == v
    ensures forall j :: 0 <= j < i ==> t[j].value != v
  {
    if t[0].value == v then 0 else 1 + IndexOf(t[1..], v)
  }

  /** The code the encoder writes for `v`. */
  function CodeOf(t: CodeTable, v: nat): string
    requires HasValue(t, v)
  {
    t[IndexOf(t, v)].code
  }

  /**
   * The decoder's code-to-symbol map: every code of the table is a key,
   * and every key maps to the value of an entry carrying that code (the
   * last one, when codes repeat).
   */
  function CodeToSymbol(t: CodeTable): (m: map<string, nat>)
    ensures forall i :: 0 <= i < |t| ==> t[i].code in m
    ensures forall c :: c in m ==> exists i :: 0 <= i < |t| && t[i].code == c && m[c] == t[i].value
  {
    if |t| == 0 then map[]
    else
      var init := t[..|t| - 1];
      var m := CodeToSymbol(init);
      assert forall i :: 0 <= i < |init| ==> init[i] == t[i];
      m[t[|t| - 1].code := t[|t| - 1].value]
  }

  /** In a valid table the decoder map sends each entry's code to that entry's value. */
  lemma CodeToSymbolInverts(t: CodeTable, i: nat)
    requires ValidCodeTable(t) && i < |t|
    ensures CodeToSymbol(t)[t[i].code] == t[i].value
  {
    var m := CodeToSymbol(t);
    var j :| 0 <= j < |t| && t[j].code == t[i].code && m[t[i].code] == t[j].value;
    if j != i {
      assert IsPrefix(t[i].code, t[j].code);
    }
  }

  /**
   * Read one code from the front of `bits`, trying the first k, k+1, ...
   * bits until they form a key of `codes`; the bits running out first is
   * an unknown code.
   */
  function ReadCode(codes: map<string, nat>, bits: string, k: nat): (r: Result<Read<nat>>)
    requires 1 <= k
    decreases |bits| + 1 - k
    ensures r.Failure? ==> r.error == UnknownCode
    ensures r.Failure? <==> forall n :: k <= n <= |bits| ==> bits[..n] !in codes
    ensures r.Success? ==>
      var n := |bits| - |r.value.rest|;
      && k <= n <= |bits|
      && bits[..n] in codes
      && codes[bits[..n]] == r.value.value
      && r.value.rest == bits[n..]
      && forall p :: k <= p < n ==> bits[..p] !in codes
  {
    if |bits| < k then Failure(UnknownCode)
    else if bits[..k] in codes then Success(Read(codes[bits[..k]], bits[k..]))
    else ReadCode(codes, bits, k + 1)
  }

  /** Reading the code of `v` in front of `rest` gives back `v` and exactly `rest`. */
  lemma ReadCodeOf(t: CodeTable, v: nat, rest: string)
    requires ValidCodeTable(t) && HasValue(t, v)
    ensures ReadCode(CodeToSymbol(t), CodeOf(t, v) + rest, 1) == Success(Read(v, rest))
  {
    var i := IndexOf(t, v);
    var code := t[i].code;
    var bits := code + rest;
    var m := CodeToSymbol(t);
    forall p | 1 <= p < |code|
      ensures bits[..p] !in m
    {
      assert bits[..p] == code[..p];
    }
    assert bits[..|code|] == code;
    CodeToSymbolInverts(t, i);
    ReadCodeFrom(m, bits, 1, |code|);
    assert bits[|code|..] == rest;
  }

  lemma {:induction false} ReadCodeFrom(codes: map<string, nat>, bits: string, k: nat, n: nat)
    requires 1 <= k <= n <= |bits|
    requires bits[..n] in codes
    requires forall p :: k <= p < n ==> bits[..p] !in codes
    ensures ReadCode(codes, bits, k) == Success(Read(codes[bits[..n]], bits[n..]))
    decreases n - k
  {
    if k < n {
      ReadCodeFrom(codes, bits, k + 1, n);
    }
  }
}

=== FILE: decoder.dfy ===
/**
 * The LZ77 decoder: rebuilds the text from the triple sequence by copying
 * each back-reference symbol by symbol, then appending the codeword.
 */
module Decoder {
  import opened Errors
  import opened Triples
  import opened Matcher
  import opened Encoder

  /**
   * Append `length` symbols, each copied from `offset` positions before
   * its own place. The copy runs forward one symbol at a time, so a
   * reference may reach into symbols this same copy has just written.
   */
  function CopyBack(out: seq<Byte>, offset: nat, length: nat): (r: seq<Byte>)
    requires 0 < offset <= |out|
    decreases length
    ensures |r| == |out| + length
    ensures r[..|out|] == out
    ensures forall k :: |out| <= k < |r| ==> r[k] == r[k - offset]
  {
    if length == 0 then out else CopyBack(out + [out[|out| - offset]], offset, length - 1)
  }

  /**
   * Decoding `ts` after `produced` symbols never points before the start
   * of the output, and a non-empty copy never has offset 0.
   */
  predicate ValidReferences(produced: nat, ts: seq<Triple>)
    decreases |ts|
  {
    || |ts| == 0
    || (&& ts[0].offset <= produced
        && (ts[0].length > 0 ==> ts[0].offset > 0)
        && ValidReferences(produced + ts[0].length + 1, ts[1..]))
  }

  function DecompressFrom(out: seq<Byte>, ts: seq<Triple>): (r: Result<seq<Byte>>)
    decreases |ts|
    ensures r.Success? <==> ValidReferences(|out|, ts)
    ensures r.Failure? ==> r.error == InvalidBackReference
    ensures r.Success? ==> |r.value| == |out| + Consumed(ts) && r.value[..|out|] == out
  {
    if |ts| == 0 then Success(out)
    else
      var t := ts[0];
      if t.offset > |out| || (t.length > 0 && t.offset == 0) then Failure(InvalidBackReference)
      else
        var copied := if t.length == 0 then out else CopyBack(out, t.offset, t.length);
        var r := DecompressFrom(copied + [t.codeword], ts[1..]);
        assert r.Success? ==> r.value[..|out|] == (copied + [t.codeword])[..|out|];
        r
  }

  /** The text a triple sequence stands for, or the first invalid back-reference. */
  function DecompressLZ77Code(ts: seq<Triple>): (r: Result<seq<Byte>>)
    ensures r.Success? <==> ValidReferences(0, ts)
    ensures r.Failure? ==> r.error == InvalidBackReference
    ensures r.Success? ==> |r.value| == Consumed(ts)
  {
    DecompressFrom([], ts)
  }

  /** Copying a genuine match back from the decoded prefix yields the matched input symbols. */
  lemma {:induction false} CopyBackReproduces(input: seq<Byte>, cursor: nat, offset: nat, length: nat)
    requires 0 < offset <= cursor && cursor + length <= |input|
    requires Agree(input, cursor - offset, cursor, length)
    ensures CopyBack(input[..cursor], offset, length) == input[..cursor + length]
    decreases length
  {
    if length > 0 {
      assert input[..cursor] + [input[..cursor][cursor - offset]] == input[..cursor + 1];
      CopyBackReproduces(input, cursor + 1, offset, length - 1);
    }
  }

  /** Any triple sequence that explains input[cursor..] decodes, after input[..cursor], to the input. */
  lemma {:induction false} DecompressExplained(input: seq<Byte>, cursor: nat, ts: seq<Triple>)
    requires cursor <= |input| && Explains(input, cursor, ts)
    ensures DecompressFrom(input[..cursor], ts) == Success(input)
    decreases |ts|
  {
    if |ts| == 0 {
      assert input[..cursor] == input;
    } else {
      var t := ts[0];
      var next := cursor + t.length + 1;
      if t.length > 0 {
        CopyBackReproduces(input, cursor, t.offset, t.length);
      }
      assert input[..cursor + t.length] + [t.codeword] == input[..next];
      DecompressExplained(input, next, ts[1..]);
    }
  }

  /** Decoding what the encoder emits gives back exactly the input. */
  lemma EncodeDecodeRoundTrip(input: seq<Byte>)
    ensures DecompressLZ77Code(Encode(input)) == Success(input)
  {
    DecompressExplained(input, 0, Encode(input));
  }
}

=== FILE: encoder.dfy ===
/**
 * The LZ77 encoder: walks the input from the first symbol, asks the
 * matcher for the best back-reference at the cursor, emits
 * <offset, length, codeword> and slides the window past the copied
 * symbols and the codeword.
 */
module Encoder {
  import opened Triples
  import opened Matcher

  /**
   * `ts` reproduces input[cursor..]: each triple copies a genuine match
   * (never past the end of input), its codeword is the symbol right after
   * the match, and the last triple ends exactly at the end of the input.
   */
  predicate Explains(input: seq<Byte>, cursor: nat, ts: seq<Triple>)
    decreases |ts|
  {
    if |ts| == 0 then cursor == |input|
    else
      && cursor + ts[0].length < |input|
      && ts[0].offset <= cursor
      && (ts[0].length > 0 ==> IsMatch(input, cursor, ts[0].offset, ts[0].length))
      && ts[0].codeword == input[cursor + ts[0].length]
      && Explains(input, cursor + ts[0].length + 1, ts[1..])
  }

  /**
   * No back-reference into the search buffer at `cursor` is longer than
   * `t`'s, and none more recent is as long.
   */
  ghost predicate LongestAt(input: seq<Byte>, cursor: nat, t: Triple) {
    && (forall o: nat, n: nat :: 1 <= o <= Min(cursor, SearchBufferSize) && IsMatch(input, cursor, o, n) ==> n <= t.length)
    && (forall o: nat, n: nat :: 1 <= o < t.offset && IsMatch(input, cursor, o, n) ==> n < t.length)
  }

  /** Every triple of `ts` is the longest match available at its own position. */
  ghost predicate Greedy(input: seq<Byte>, cursor: nat, ts: seq<Triple>)
    decreases |ts|
  {
    |ts| == 0 || (LongestAt(input, cursor, ts[0]) && Greedy(input, cursor + ts[0].length + 1, ts[1..]))
  }

  /**
   * `t` is a triple the encoder may emit at `cursor`: it keeps the triple
   * bounds, copies a genuine match (never past the end of the input),
   * carries the symbol right after the match, and is the longest match in
   * the search buffer.
   */
  ghost predicate StepAt(input: seq<Byte>, cursor: nat, t: Triple) {
    && WellFormed(t)
    && cursor + t.length < |input|
    && t.codeword == input[cursor + t.length]
    && t.offset <= cursor
    && (t.length > 0 ==> IsMatch(input, cursor, t.offset, t.length))
    && LongestAt(input, cursor, t)
  }

  /** `ts` is a greedy LZ77 parse of input[cursor..]: one valid step after another, ending at the end of the input. */
  ghost predicate GreedyParse(input: seq<Byte>, cursor: nat, ts: seq<Triple>)
    decreases |ts|
  {
    if |ts| == 0 then cursor == |input|
    else StepAt(input, cursor, ts[0]) && GreedyParse(input, cursor + ts[0].length + 1, ts[1..])
  }

  /** A greedy parse keeps the triple bounds, reproduces the input and picks the longest match every time. */
  lemma {:induction false} GreedyParseSplits(input: seq<Byte>, cursor: nat, ts: seq<Triple>)
    requires GreedyParse(input, cursor, ts)
    ensures forall i :: 0 <= i < |ts| ==> WellFormed(ts[i])
    ensures Explains(input, cursor, ts)
    ensures Greedy(input, cursor, ts)
    decreases |ts|
  {
    if |ts| > 0 {
      GreedyParseSplits(input, cursor + ts[0].length + 1, ts[1..]);
      forall i | 0 <= i < |ts|
        ensures WellFormed(ts[i])
      {
        if i > 0 {
          assert ts[i] == ts[1..][i - 1];
        }
      }
    }
  }

  /** The triples for input[w.cursor..], continuing from window `w`. */
  function EncodeFrom(input: seq<Byte>, w: SearchWindow): seq<Triple>
    requires Bounded(w) && w.cursor <= |input|
    decreases |input| - w.cursor
  {
    if w.cursor == |input| then []
    else
      var t := NextTriple(input, w);
      [t] + EncodeFrom(input, UpdateSearchBufferTree(w, t.length + 1))
  }

  /** From any window position, the encoder's triples are a greedy parse of the rest of the input. */
  lemma {:induction false} EncodeFromParses(input: seq<Byte>, w: SearchWindow)
    requires Bounded(w) && w.cursor <= |input|
    ensures GreedyParse(input, w.cursor, EncodeFrom(input, w))
    decreases |input| - w.cursor
  {
    if w.cursor < |input| {
      var t := NextTriple(input, w);
      var next := UpdateSearchBufferTree(w, t.length + 1);
      var rest := EncodeFrom(input, next);
      EncodeFromParses(input, next);
      ParseCons(input, w.cursor, t, rest);
      assert EncodeFrom(input, w) == [t] + rest;
    }
  }

  /** A valid step in front of a greedy parse of what follows it is a greedy parse. */
  lemma ParseCons(input: seq<Byte>, cursor: nat, t: Triple, rest: seq<Triple>)
    requires StepAt(input, cursor, t) && GreedyParse(input, cursor + t.length + 1, rest)
    ensures GreedyParse(input, cursor, [t] + rest)
  {
    assert ([t] + rest)[1..] == rest;
  }

  /**
   * The triple emitted at the cursor: the matcher's offset and length and
   * the symbol after the match. It keeps the triple bounds, copies a
   * genuine match and is the longest one in the window.
   */
  function NextTriple(input: seq<Byte>, w: SearchWindow): (t: Triple)
    requires Bounded(w) && w.cursor < |input|
    ensures StepAt(input, w.cursor, t)
  {
    var m := MatchPattern(input, w);
    var t := Triple(m.offset, m.length, input[w.cursor + m.length]);
    PatternIsLongestAt(input, w, t);
    t
  }

  /** A triple carrying MatchPattern's offset and length is the longest match at the cursor. */
  lemma PatternIsLongestAt(input: seq<Byte>, w: SearchWindow, t: Triple)
    requires Bounded(w) && w.cursor < |input|
    requires t.offset == MatchPattern(input, w).offset && t.length == MatchPattern(input, w).length
    ensures LongestAt(input, w.cursor, t)
  {
    BoundedWindowSize(w);
    forall o: nat, n: nat | 1 <= o <= Min(w.cursor, SearchBufferSize) && IsMatch(input, w.cursor, o, n)
      ensures n <= t.length && (o < t.offset ==> n < t.length)
    {
      MatchPatternIsLongest(input, w, o, n);
    }
  }

  /** The triple sequence for the whole input, starting with an empty search buffer. */
  function Encode(input: seq<Byte>): (ts: seq<Triple>)
    ensures forall i :: 0 <= i < |ts| ==> WellFormed(ts[i])
    ensures Explains(input, 0, ts)
    ensures Greedy(input, 0, ts)
    ensures Consumed(ts) == |input|
    ensures |ts| <= |input|
    ensures |ts| == 0 <==> |input| == 0
  {
    var ts := EncodeFrom(input, EmptyWindow);
    EncodeFromParses(input, EmptyWindow);
    GreedyParseSplits(input, 0, ts);
    ExplainsConsumes(input, 0, ts);
    ts
  }

  /**
   * Triples explaining input[cursor..] advance the cursor by length + 1
   * each and so account for every remaining symbol.
   */
  lemma {:induction false} ExplainsConsumes(input: seq<Byte>, cursor: nat, ts: seq<Triple>)
    requires Explains(input, cursor, ts)
    ensures cursor + Consumed(ts) == |input|
    ensures |ts| <= Consumed(ts)
    decreases |ts|
  {
    if |ts| > 0 {
      ExplainsConsumes(input, cursor + ts[0].length + 1, ts[1..]);
    }
  }

  /**
   * On a run of one repeated symbol, a greedy parse from `cursor` >= 1
   * copies from one symbol back as far as the look-ahead buffer allows,
   * so each triple covers up to 256 symbols.
   */
  lemma {:induction false} GreedyOnRun(input: seq<Byte>, cursor: nat, ts: seq<Triple>)
    requires forall i :: 0 <= i < |input| ==> input[i] == input[0]
    requires 1 <= cursor
    requires Explains(input, cursor, ts) && Greedy(input, cursor, ts)
    ensures |ts| <= 1 + (|input| - cursor) / (LookAheadBufferSize + 1)
    decreases |ts|
  {
    if |ts| > 0 {
      var t := ts[0];
      RunAgrees(input, cursor - 1, cursor, MaxMatchLength(input, cursor));
      assert IsMatch(input, cursor, 1, MaxMatchLength(input, cursor));
      GreedyOnRun(input, cursor + t.length + 1, ts[1..]);
    }
  }

  /** In a run of one repeated symbol any two stretches inside the input agree. */
  lemma {:induction false} RunAgrees(input: seq<Byte>, i: nat, j: nat, n: nat)
    requires forall k :: 0 <= k < |input| ==> input[k] == input[0]
    requires i + n <= |input| && j + n <= |input|
    ensures Agree(input, i, j, n)
    decreases n
  {
    if n > 0 {
      RunAgrees(input, i + 1, j + 1, n - 1);
    }
  }

  /** A run of n copies of one symbol encodes to at most 2 + (n - 1) / 256 triples. */
  lemma RunCompresses(input: seq<Byte>)
    requires |input| > 0
    requires forall i :: 0 <= i < |input| ==> input[i] == input[0]
    ensures |Encode(input)| <= 2 + (|input| - 1) / (LookAheadBufferSize + 1)
  {
    RunParseCompresses(input, Encode(input));
  }

  /** A greedy parse of a whole run starts with a literal and continues from the second symbol. */
  lemma RunParseCompresses(input: seq<Byte>, ts: seq<Triple>)
    requires |input| > 0
    requires forall i :: 0 <= i < |input| ==> input[i] == input[0]
    requires Explains(input, 0, ts) && Greedy(input, 0, ts)
    ensures |ts| <= 2 + (|input| - 1) / (LookAheadBufferSize + 1)
  {
    assert ts[0].length == 0;
    GreedyOnRun(input, 1, ts[1..]);
  }

  /** How often each value occurs in `xs`: the input of a Huffman table. */
  function Frequencies(xs: seq<nat>): (m: map<nat, nat>)
    ensures m.Keys == set x | x in xs
    ensures forall x :: x in m ==> m[x] == multiset(xs)[x]
  {
    if |xs| == 0 then map[]
    else
      var init := xs[..|xs| - 1];
      var last := xs[|xs| - 1];
      var m := Frequencies(init);
      assert xs == init + [last];
      m[last := if last in m then m[last] + 1 else 1]
  }

  /** Offset frequencies of a triple sequence, from which the offset Huffman table is built. */
  function OffsetFrequencies(ts: seq<Triple>): (m: map<nat, nat>)
    ensures m.Keys == set x | x in OffsetsOf(ts)
    ensures forall x :: x in m ==> m[x] == multiset(OffsetsOf(ts))[x]
  {
    Frequencies(OffsetsOf(ts))
  }

  /** Every emitted offset has a positive count, and every counted offset was emitted. */
  lemma EmittedOffsetsCounted(ts: seq<Triple>)
    ensures forall i :: 0 <= i < |ts| ==> ts[i].offset in OffsetFrequencies(ts) && OffsetFrequencies(ts)[ts[i].offset] >= 1
    ensures forall x :: x in OffsetFrequencies(ts) ==> exists i :: 0 <= i < |ts| && ts[i].offset == x
  {
    var xs := OffsetsOf(ts);
    var m := OffsetFrequencies(ts);
    forall x | x in m
      ensures exists i :: 0 <= i < |ts| && ts[i].offset == x
    {
      var i :| 0 <= i < |xs| && xs[i] == x;
      assert ts[i].offset == x;
    }
    forall i | 0 <= i < |ts|
      ensures ts[i].offset in m && m[ts[i].offset] >= 1
    {
      assert xs[i] in xs;
      assert xs[i] in multiset(xs);
    }
  }

  /** Length frequencies of a triple sequence, from which the length Huffman table is built. */
  function LengthFrequencies(ts: seq<Triple>): (m: map<nat, nat>)
    ensures m.Keys == set x | x in LengthsOf(ts)
    ensures forall x :: x in m ==> m[x] == multiset(LengthsOf(ts))[x]
  {
    Frequencies(LengthsOf(ts))
  }

  /** Every emitted length has a positive count, and every counted length was emitted. */
  lemma EmittedLengthsCounted(ts: seq<Triple>)
    ensures forall i :: 0 <= i < |ts| ==> ts[i].length in LengthFrequencies(ts) && LengthFrequencies(ts)[ts[i].length] >= 1
    ensures forall x :: x in LengthFrequencies(ts) ==> exists i :: 0 <= i < |ts| && ts[i].length == x
  {
    var xs := LengthsOf(ts);
    var m := LengthFrequencies(ts);
    forall x | x in m
      ensures exists i :: 0 <= i < |ts| && ts[i].length == x
    {
      var i :| 0 <= i < |xs| && xs[i] == x;
      assert ts[i].length == x;
    }
    forall i | 0 <= i < |ts|
      ensures ts[i].length in m && m[ts[i].length] >= 1
    {
      assert xs[i] in xs;
      assert xs[i] in multiset(xs);
    }
  }
}

=== FILE: errors.dfy ===
/** Failure kinds of the decoder and a Result type usable with `:-`. */
module Errors {

  /** Why decoding a compressed bit string stopped. */
  datatype Error =
    | CorruptHeader         // a header field runs past the end of the bits
    | UnknownCode           // no table code matches before the bits run out
    | TruncatedContent      // fewer than eight bits left for a triple's literal
    | InvalidBackReference  // a triple points before the start of the output

  datatype Result<+T> = Success(value: T) | Failure(error: Error) {

    predicate IsFailure() {
      Failure?
    }

    function PropagateFailure<U>(): Result<U>
      requires Failure?
    {
      Failure(error)
    }

    function Extract(): T
      requires Success?
    {
      value
    }
  }
}

=== FILE: framing.dfy ===
/**
 * The compressed bit string: the offset table header, the length table
 * header, then one (offset code, length code, 8-bit symbol) group per
 * triple, with no count or terminator after the last triple.
 */
module Framing {
  import opened Errors
  import opened BinString
  import opened Triples
  import opened CodeTables

  /** Width of a header's symbol count (2 bytes). */
  const CountBits: nat := 16
  /** Width of an entry's value field (1 byte). */
  const ValueBits: nat := 8
  /** Width of an entry's code-size field (1 byte). */
  const SizeBits: nat := 8
  /** Width of a triple's literal symbol (1 byte). */
  const SymbolBits: nat := 8

  /** Number of values a one-byte field holds: 2^8. */
  const ByteValues: nat := 256
  /** Number of values the two-byte count holds: 2^16. */
  const CountValues: nat := 65536

  /**
   * A table whose header fields fit their widths. The value field is one
   * byte although offsets reach SearchBufferSize (2048): an offset table
   * holding a value of 256 or more cannot be written faithfully, so the
   * header round trips below carry this precondition.
   */
  predicate HeaderEncodable(t: CodeTable) {
    && |t| < CountValues
    && HeaderFieldsFit(t)
  }

  function SerializeEntry(e: CodeEntry): string {
    IntToBinString(e.value, ValueBits) + IntToBinString(|e.code|, SizeBits) + e.code
  }

  function SerializeEntries(t: CodeTable): string {
    if |t| == 0 then "" else SerializeEntry(t[0]) + SerializeEntries(t[1..])
  }

  /** A table header: the entry count, then each (value, code size, code). */
  function SerializeTable(t: CodeTable): (s: string)
    ensures |s| >= CountBits
    ensures s[..CountBits] == IntToBinString(|t|, CountBits)
  {
    IntToBinString(|t|, CountBits) + SerializeEntries(t)
  }

  /**
   * Parse `count` header entries. Bits running out inside the value or
   * size field, or a declared code size longer than the bits left, is a
   * corrupt header.
   */
  function ParseEntries(bits: string, count: nat): (r: Result<Read<CodeTable>>)
    decreases count
    ensures r.Failure? ==> r.error == CorruptHeader
    ensures r.Success? ==> |r.value.value| == count && HeaderFieldsFit(r.value.value)
    ensures r.Success? ==> |r.value.rest| <= |bits| && r.value.rest == bits[|bits| - |r.value.rest|..]
  {
    if count == 0 then Success(Read([], bits))
    else
      var value :- ReadInt(bits, ValueBits, CorruptHeader);
      var size :- ReadInt(value.rest, SizeBits, CorruptHeader);
      if |size.rest| < size.value then Failure(CorruptHeader)
      else
        var more :- ParseEntries(size.rest[size.value..], count - 1);
        Success(Read([CodeEntry(value.value, size.rest[..size.value])] + more.value, more.rest))
  }

  /**
   * When an entry is still due, bits too short for its value and size
   * fields, or a size field declaring a code longer than the bits after
   * it, make the header corrupt.
   */
  lemma ParseEntriesCorrupt(bits: string, count: nat)
    requires count > 0
    ensures |bits| < ValueBits + SizeBits ==> ParseEntries(bits, count) == Failure(CorruptHeader)
    ensures ValueBits + SizeBits <= |bits|
            && |bits| - (ValueBits + SizeBits) < BinStringToInt(bits[ValueBits..ValueBits + SizeBits])
            ==> ParseEntries(bits, count) == Failure(CorruptHeader)
  {
    if ValueBits + SizeBits <= |bits| {
      assert bits[ValueBits..][..SizeBits] == bits[ValueBits..ValueBits + SizeBits];
      assert |bits[ValueBits..][SizeBits..]| == |bits| - (ValueBits + SizeBits);
    }
  }

  /** Every parsed entry's value and code size fit their one-byte fields. */
  predicate HeaderFieldsFit(t: CodeTable) {
    forall i :: 0 <= i < |t| ==> t[i].value < ByteValues && |t[i].code| < ByteValues
  }

  /**
   * Parse a table header from the front of `bits`; a field or code running
   * past the end of the bits is a corrupt header. The table has exactly
   * as many entries as the count field says, and it fails exactly when
   * those entries do not parse.
   */
  function ParseTable(bits: string): (r: Result<Read<CodeTable>>)
    ensures |bits| < CountBits ==> r == Failure(CorruptHeader)
    ensures r.Failure? ==> r.error == CorruptHeader
    ensures CountBits <= |bits| ==>
      (r.Failure? <==> ParseEntries(bits[CountBits..], BinStringToInt(bits[..CountBits])).Failure?)
    ensures r.Success? ==> |r.value.value| == BinStringToInt(bits[..CountBits])
    ensures r.Success? ==> HeaderEncodable(r.value.value)
    ensures r.Success? ==> |r.value.rest| <= |bits| - CountBits && r.value.rest == bits[|bits| - |r.value.rest|..]
  {
    FieldWidths();
    var count :- ReadInt(bits, CountBits, CorruptHeader);
    assert count.value == BinStringToInt(bits[..CountBits]) && count.rest == bits[CountBits..];
    ParseEntries(count.rest, count.value)
  }

  lemma {:induction false} EntriesRoundTrip(t: CodeTable, rest: string)
    requires HeaderFieldsFit(t)
    ensures ParseEntries(SerializeEntries(t) + rest, |t|) == Success(Read(t, rest))
    decreases |t|
  {
    if |t| > 0 {
      var tail := SerializeEntries(t[1..]) + rest;
      assert HeaderFieldsFit(t[1..]) by {
        assert forall i :: 0 <= i < |t| - 1 ==> t[1..][i] == t[i + 1];
      }
      EntriesRoundTrip(t[1..], rest);
      EntryRoundTrip(t[0], tail, |t|);
      Reassociate2(SerializeEntry(t[0]), SerializeEntries(t[1..]), rest);
      HeadTail(t);
    }
  }

  /** One serialised entry in front of `tail` parses back as that entry followed by what `tail` parses to. */
  lemma EntryRoundTrip(e: CodeEntry, tail: string, count: nat)
    requires e.value < ByteValues && |e.code| < ByteValues
    requires count >= 1 && ParseEntries(tail, count - 1).Success?
    ensures ParseEntries(SerializeEntry(e) + tail, count)
         == Success(Read([e] + ParseEntries(tail, count - 1).value.value, ParseEntries(tail, count - 1).value.rest))
  {
    var afterSize := e.code + tail;
    var afterValue := IntToBinString(|e.code|, SizeBits) + afterSize;
    FieldWidths();
    Reassociate(IntToBinString(e.value, ValueBits), IntToBinString(|e.code|, SizeBits), e.code, tail);
    ReadIntRoundTrip(e.value, ValueBits, afterValue, CorruptHeader);
    ReadIntRoundTrip(|e.code|, SizeBits, afterSize, CorruptHeader);
    assert afterSize[..|e.code|] == e.code;
    assert afterSize[|e.code|..] == tail;
  }

  /**
   * Parsing a serialised header gives back the same entries, in order, and
   * leaves exactly the bits that followed it.
   */
  lemma HeaderRoundTrip(t: CodeTable, rest: string)
    requires HeaderEncodable(t)
    ensures ParseTable(SerializeTable(t) + rest) == Success(Read(t, rest))
  {
    var bits := SerializeTable(t) + rest;
    assert bits == IntToBinString(|t|, CountBits) + (SerializeEntries(t) + rest);
    FieldWidths();
    ReadIntRoundTrip(|t|, CountBits, SerializeEntries(t) + rest, CorruptHeader);
    EntriesRoundTrip(t, rest);
  }

  /**
   * With a one-byte value field, an offset of 256 is written as value 0:
   * the header of a table mapping offset 256 to code "1" reads back as a
   * table mapping offset 0 to "1".
   */
  lemma HeaderValueFieldIsOneByte()
    ensures ParseTable(SerializeTable([CodeEntry(256, "1")])) == Success(Read([CodeEntry(0, "1")], ""))
  {
    var wide := IntToBinString(256, ValueBits);
    var zero := IntToBinString(0, ValueBits);
    FieldWidths();
    IntToBinStringTruncates(256, ValueBits);
    IntToBinStringRoundTrip(0, ValueBits);
    BinStringToIntRoundTrip(wide);
    assert wide == zero;
    var header := SerializeTable([CodeEntry(0, "1")]);
    assert SerializeEntry(CodeEntry(256, "1")) == SerializeEntry(CodeEntry(0, "1"));
    assert SerializeEntries([CodeEntry(256, "1")]) == SerializeEntries([CodeEntry(0, "1")]);
    assert SerializeTable([CodeEntry(256, "1")]) == header;
    assert header + "" == header;
    HeaderRoundTrip([CodeEntry(0, "1")], "");
  }

  lemma FieldWidths()
    ensures Pow2(ValueBits) == ByteValues && Pow2(SizeBits) == ByteValues && Pow2(SymbolBits) == ByteValues
    ensures Pow2(CountBits) == CountValues
  {
    assert Pow2(4) == 16;
    assert Pow2(8) == 256;
    assert Pow2(12) == 4096;
  }

  /** Every triple's offset and length have a code in their tables. */
  predicate Covers(ot: CodeTable, lt: CodeTable, ts: seq<Triple>) {
    forall i :: 0 <= i < |ts| ==> HasValue(ot, ts[i].offset) && HasValue(lt, ts[i].length)
  }

  /** One triple of the content section: the offset code, the length code, the 8-bit symbol. */
  function SerializeTriple(ot: CodeTable, lt: CodeTable, t: Triple): string
    requires HasValue(ot, t.offset) && HasValue(lt, t.length)
  {
    CodeOf(ot, t.offset) + CodeOf(lt, t.length) + IntToBinString(t.codeword, SymbolBits)
  }

  /** The content section: the triples one after another, with nothing after the last. */
  function SerializeTriples(ot: CodeTable, lt: CodeTable, ts: seq<Triple>): string
    requires Covers(ot, lt, ts)
  {
    if |ts| == 0 then "" else SerializeTriple(ot, lt, ts[0]) + SerializeTriples(ot, lt, ts[1..])
  }

  /**
   * Parse triples until the bits are used up. Only a stream that ends
   * exactly after a triple's symbol parses: a code that matches nothing
   * before the bits run out is UnknownCode, and fewer than eight bits for
   * the symbol is TruncatedContent.
   */
  function ParseTriples(offsetCodes: map<string, nat>, lengthCodes: map<string, nat>, bits: string)
    : (r: Result<seq<Triple>>)
    decreases |bits|
    ensures |bits| == 0 ==> r == Success([])
    ensures r.Failure? ==> r.error == UnknownCode || r.error == TruncatedContent
    ensures |bits| > 0 && ReadCode(offsetCodes, bits, 1).Failure? ==> r == Failure(UnknownCode)
    ensures r.Success? ==> forall i :: 0 <= i < |r.value| ==>
      r.value[i].offset in offsetCodes.Values && r.value[i].length in lengthCodes.Values
  {
    if |bits| == 0 then Success([])
    else
      var offset :- ReadCode(offsetCodes, bits, 1);
      var length :- ReadCode(lengthCodes, offset.rest, 1);
      if |length.rest| < SymbolBits then Failure(TruncatedContent)
      else
        var symbol := BinStringToInt(length.rest[..SymbolBits]);
        assert Pow2(SymbolBits) == 256;
        var more :- ParseTriples(offsetCodes, lengthCodes, length.rest[SymbolBits..]);
        Success([Triple(offset.value, length.value, symbol)] + more)
  }

  /**
   * Given prefix-free tables holding every offset and length, parsing the
   * content section gives back exactly the serialised triples.
   */
  lemma {:induction false} ContentRoundTrip(ot: CodeTable, lt: CodeTable, ts: seq<Triple>)
    requires ValidCodeTable(ot) && ValidCodeTable(lt) && Covers(ot, lt, ts)
    ensures ParseTriples(CodeToSymbol(ot), CodeToSymbol(lt), SerializeTriples(ot, lt, ts)) == Success(ts)
    decreases |ts|
  {
    if |ts| > 0 {
      var om, lm := CodeToSymbol(ot), CodeToSymbol(lt);
      var rest := ts[1..];
      var tail := SerializeTriples(ot, lt, rest);
      assert SerializeTriples(ot, lt, ts) == SerializeTriple(ot, lt, ts[0]) + tail;
      ContentRoundTrip(ot, lt, rest);
      TripleRoundTrip(ot, lt, ts[0], tail);
      HeadTail(ts);
    }
  }

  /**
   * Bits after the last triple make parsing fail: fewer than ten of them
   * (the shortest triple is a one-bit offset code, a one-bit length code
   * and the 8-bit symbol) can never complete a triple, so the zero padding
   * that rounds a file up to whole bytes is rejected, not skipped.
   */
  lemma PaddedContentFails(ot: CodeTable, lt: CodeTable, ts: seq<Triple>, pad: string)
    requires ValidCodeTable(ot) && ValidCodeTable(lt) && Covers(ot, lt, ts)
    requires 0 < |pad| < 10
    ensures ParseTriples(CodeToSymbol(ot), CodeToSymbol(lt), SerializeTriples(ot, lt, ts) + pad).Failure?
  {
    ShortContentFails(CodeToSymbol(ot), CodeToSymbol(lt), pad);
    TriplesThenFailure(ot, lt, ts, pad);
  }

  /** Serialised triples in front of bits that fail to parse fail to parse. */
  lemma {:induction false} TriplesThenFailure(ot: CodeTable, lt: CodeTable, ts: seq<Triple>, tail: string)
    requires ValidCodeTable(ot) && ValidCodeTable(lt) && Covers(ot, lt, ts)
    requires ParseTriples(CodeToSymbol(ot), CodeToSymbol(lt), tail).Failure?
    ensures ParseTriples(CodeToSymbol(ot), CodeToSymbol(lt), SerializeTriples(ot, lt, ts) + tail).Failure?
    decreases |ts|
  {
    if |ts| == 0 {
      assert SerializeTriples(ot, lt, ts) + tail == tail;
    } else {
      var rest := SerializeTriples(ot, lt, ts[1..]);
      TriplesThenFailure(ot, lt, ts[1..], tail);
      Reassociate2(SerializeTriple(ot, lt, ts[0]), rest, tail);
      TripleRoundTrip(ot, lt, ts[0], rest + tail);
    }
  }

  /** A length code that matches nothing after a readable offset code is an unknown code. */
  lemma UnknownLengthCodeFails(om: map<string, nat>, lm: map<string, nat>, bits: string)
    requires |bits| > 0 && ReadCode(om, bits, 1).Success?
    requires ReadCode(lm, ReadCode(om, bits, 1).value.rest, 1).Failure?
    ensures ParseTriples(om, lm, bits) == Failure(UnknownCode)
  {
  }

  /** Fewer than eight bits left for the symbol after both codes is truncated content. */
  lemma ShortLiteralFails(om: map<string, nat>, lm: map<string, nat>, bits: string)
    requires |bits| > 0 && ReadCode(om, bits, 1).Success?
    requires ReadCode(lm, ReadCode(om, bits, 1).value.rest, 1).Success?
    requires |ReadCode(lm, ReadCode(om, bits, 1).value.rest, 1).value.rest| < SymbolBits
    ensures ParseTriples(om, lm, bits) == Failure(TruncatedContent)
  {
  }

  /** Fewer than ten bits, but some, never parse as triples. */
  lemma ShortContentFails(om: map<string, nat>, lm: map<string, nat>, bits: string)
    requires 0 < |bits| < 10
    ensures ParseTriples(om, lm, bits).Failure?
  {
    var offset := ReadCode(om, bits, 1);
    if offset.Success? {
      var length := ReadCode(lm, offset.value.rest, 1);
      if length.Success? {
        assert |length.value.rest| < SymbolBits;
      }
    }
  }

  /**
   * One serialised triple in front of `tail` parses back as that triple
   * followed by whatever `tail` parses to; if `tail` fails, so does the
   * whole, with the same error.
   */
  lemma TripleRoundTrip(ot: CodeTable, lt: CodeTable, t: Triple, tail: string)
    requires ValidCodeTable(ot) && ValidCodeTable(lt) && HasValue(ot, t.offset) && HasValue(lt, t.length)
    ensures ParseTriples(CodeToSymbol(ot), CodeToSymbol(lt), tail).Success? ==>
      ParseTriples(CodeToSymbol(ot), CodeToSymbol(lt), SerializeTriple(ot, lt, t) + tail)
        == Success([t] + ParseTriples(CodeToSymbol(ot), CodeToSymbol(lt), tail).value)
    ensures ParseTriples(CodeToSymbol(ot), CodeToSymbol(lt), tail).Failure? ==>
      ParseTriples(CodeToSymbol(ot), CodeToSymbol(lt), SerializeTriple(ot, lt, t) + tail)
        == ParseTriples(CodeToSymbol(ot), CodeToSymbol(lt), tail)
  {
    var om, lm := CodeToSymbol(ot), CodeToSymbol(lt);
    var symbolBits := IntToBinString(t.codeword, SymbolBits);
    var afterLength := symbolBits + tail;
    var afterOffset := CodeOf(lt, t.length) + afterLength;
    var bits := SerializeTriple(ot, lt, t) + tail;
    Reassociate(CodeOf(ot, t.offset), CodeOf(lt, t.length), symbolBits, tail);
    ReadCodeOf(ot, t.offset, afterOffset);
    ReadCodeOf(lt, t.length, afterLength);
    SymbolRoundTrip(t.codeword, tail);
    ParseTriplesStep(om, lm, bits, afterOffset, afterLength, t, tail);
  }

  lemma HeadTail<T>(s: seq<T>)
    requires |s| > 0
    ensures [s[0]] + s[1..] == s
  {
  }

  lemma Reassociate2(a: string, b: string, c: string)
    ensures a + b + c == a + (b + c)
  {
  }

  lemma Reassociate(a: string, b: string, c: string, d: string)
    ensures a + b + c + d == a + (b + (c + d))
  {
  }

  lemma SymbolRoundTrip(b: Byte, tail: string)
    ensures var bits := IntToBinString(b, SymbolBits) + tail;
      |bits| >= SymbolBits && BinStringToInt(bits[..SymbolBits]) == b && bits[SymbolBits..] == tail
  {
    var bits := IntToBinString(b, SymbolBits) + tail;
    assert bits[..SymbolBits] == IntToBinString(b, SymbolBits);
    assert bits[SymbolBits..] == tail;
    assert Pow2(SymbolBits) == 256;
    IntToBinStringRoundTrip(b, SymbolBits);
  }

  /** One unfolding of ParseTriples on a triple whose three fields read back cleanly, in both outcomes. */
  lemma ParseTriplesStep(om: map<string, nat>, lm: map<string, nat>, bits: string,
                         afterOffset: string, afterLength: string, t: Triple, tail: string)
    requires ReadCode(om, bits, 1) == Success(Read(t.offset, afterOffset))
    requires ReadCode(lm, afterOffset, 1) == Success(Read(t.length, afterLength))
    requires |afterLength| >= SymbolBits && BinStringToInt(afterLength[..SymbolBits]) == t.codeword
    requires afterLength[SymbolBits..] == tail
    ensures ParseTriples(om, lm, tail).Success? ==>
      ParseTriples(om, lm, bits) == Success([t] + ParseTriples(om, lm, tail).value)
    ensures ParseTriples(om, lm, tail).Failure? ==> ParseTriples(om, lm, bits) == ParseTriples(om, lm, tail)
  {
  }
}

=== FILE: matcher.dfy ===
/**
 * The sliding-window matcher. The source keeps an ordered multiset of
 * window substrings and looks at the neighbours of the look-ahead buffer
 * in that order; this module instead scans every back-reference into the
 * search buffer and returns the longest one whose symbols equal a prefix
 * of the look-ahead buffer. On a tie it picks the most recent one, which
 * is this model's choice: the source's pick among equally long matches
 * depends on the multiset's order.
 */
module Matcher {
  import opened Triples

  /**
   * The search buffer is input[start..cursor]; the look-ahead buffer
   * starts at `cursor`.
   */
  datatype SearchWindow = SearchWindow(start: nat, cursor: nat)

  /** The search buffer never exceeds its capacity and only drops old symbols once full. */
  predicate Bounded(w: SearchWindow) {
    && w.start <= w.cursor
    && w.cursor - w.start <= SearchBufferSize
    && (w.start > 0 ==> w.cursor - w.start == SearchBufferSize)
  }

  /** The window before any symbol is consumed. */
  const EmptyWindow: SearchWindow := SearchWindow(0, 0)

  /**
   * Slide the window over `advance` consumed symbols: they join the search
   * buffer and the oldest symbols leave it once it holds more than
   * SearchBufferSize.
   */
  function UpdateSearchBufferTree(w: SearchWindow, advance: nat): (w': SearchWindow)
    requires Bounded(w)
    ensures Bounded(w')
    ensures w'.cursor == w.cursor + advance
    ensures w.start <= w'.start
    ensures w.cursor - w.start == SearchBufferSize ==> w'.start == w.start + advance
    ensures w'.cursor - w'.start >= w.cursor - w.start
  {
    var cursor := w.cursor + advance;
    SearchWindow(if cursor > SearchBufferSize then cursor - SearchBufferSize else 0, cursor)
  }

  /** A bounded window holds the last min(cursor, SearchBufferSize) symbols. */
  lemma BoundedWindowSize(w: SearchWindow)
    requires Bounded(w)
    ensures w.cursor - w.start == Min(w.cursor, SearchBufferSize)
  {
  }

  /** Symbols from `cursor` on that the look-ahead buffer holds. */
  function LookAheadBuffer(input: seq<Byte>, cursor: nat): (b: seq<Byte>)
    requires cursor <= |input|
    ensures |b| <= LookAheadBufferSize
    ensures cursor + |b| <= |input|
    ensures b == input[cursor..cursor + |b|]
    ensures |b| == LookAheadBufferSize || cursor + |b| == |input|
  {
    input[cursor..cursor + Min(LookAheadBufferSize, |input| - cursor)]
  }

  /**
   * Longest length a match at `cursor` may have: it fits the look-ahead
   * buffer and leaves one symbol of input for the triple's codeword.
   */
  function MaxMatchLength(input: seq<Byte>, cursor: nat): nat
    requires cursor < |input|
  {
    Min(LookAheadBufferSize, |input| - cursor - 1)
  }

  /** The `n` symbols from position `i` equal the `n` symbols from position `j`. */
  predicate Agree(input: seq<Byte>, i: nat, j: nat, n: nat)
    decreases n
  {
    n == 0 || (i < |input| && j < |input| && input[i] == input[j] && Agree(input, i + 1, j + 1, n - 1))
  }

  /** Agreement holds symbol by symbol. */
  lemma {:induction false} AgreeAt(input: seq<Byte>, i: nat, j: nat, n: nat, k: nat)
    requires Agree(input, i, j, n) && k < n
    ensures i + k < |input| && j + k < |input| && input[i + k] == input[j + k]
    decreases n
  {
    if k > 0 {
      AgreeAt(input, i + 1, j + 1, n - 1, k - 1);
    }
  }

  /** Agreement grows by one when the next symbols are equal. */
  lemma {:induction false} AgreeExtend(input: seq<Byte>, i: nat, j: nat, n: nat)
    requires Agree(input, i, j, n)
    requires i + n < |input| && j + n < |input| && input[i + n] == input[j + n]
    ensures Agree(input, i, j, n + 1)
    decreases n
  {
    if n > 0 {
      AgreeExtend(input, i + 1, j + 1, n - 1);
    }
  }

  /** Agreement is equality of the two slices. */
  lemma {:induction false} AgreeSlices(input: seq<Byte>, i: nat, j: nat, n: nat)
    requires i + n <= |input| && j + n <= |input|
    ensures Agree(input, i, j, n) <==> input[i..i + n] == input[j..j + n]
    decreases n
  {
    if n > 0 {
      AgreeSlices(input, i + 1, j + 1, n - 1);
      var a, b := input[i..i + n], input[j..j + n];
      assert a == [input[i]] + input[i + 1..i + n];
      assert b == [input[j]] + input[j + 1..j + n];
      if a == b {
        assert a[0] == b[0] && a[1..] == b[1..];
      }
    }
  }

  /**
   * The `length` symbols starting `offset` before `cursor` equal the
   * `length` symbols starting at `cursor`. The copied region may run into
   * the look-ahead buffer (offset < length), as LZ77 allows.
   */
  predicate IsMatch(input: seq<Byte>, cursor: nat, offset: nat, length: nat) {
    && cursor < |input|
    && 0 < offset <= cursor
    && length <= MaxMatchLength(input, cursor)
    && Agree(input, cursor - offset, cursor, length)
  }

  /** Symbol by symbol, a match copies the look-ahead buffer. */
  lemma MatchAgrees(input: seq<Byte>, cursor: nat, offset: nat, length: nat, k: nat)
    requires IsMatch(input, cursor, offset, length) && k < length
    ensures input[cursor - offset + k] == input[cursor + k]
  {
    AgreeAt(input, cursor - offset, cursor, length, k);
  }

  /** A match is a prefix of the look-ahead buffer copied from `offset` back. */
  lemma MatchIsLookAheadPrefix(input: seq<Byte>, cursor: nat, offset: nat, length: nat)
    requires IsMatch(input, cursor, offset, length)
    ensures length <= |LookAheadBuffer(input, cursor)|
    ensures input[cursor - offset..cursor - offset + length] == LookAheadBuffer(input, cursor)[..length]
  {
    AgreeSlices(input, cursor - offset, cursor, length);
  }

  /** Grow a match from `offset` back one symbol at a time while the symbols agree. */
  function ExtendMatch(input: seq<Byte>, cursor: nat, offset: nat, n: nat): (r: nat)
    requires IsMatch(input, cursor, offset, n)
    decreases MaxMatchLength(input, cursor) - n
    ensures n <= r
    ensures IsMatch(input, cursor, offset, r)
    ensures r == MaxMatchLength(input, cursor) || input[cursor - offset + r] != input[cursor + r]
  {
    if n < MaxMatchLength(input, cursor) && input[cursor - offset + n] == input[cursor + n] then
      AgreeExtend(input, cursor - offset, cursor, n);
      ExtendMatch(input, cursor, offset, n + 1)
    else
      n
  }

  /**
   * Length of the longest common prefix of the look-ahead buffer and the
   * candidate starting `offset` symbols back, capped by MaxMatchLength:
   * a genuine match that stops at the cap or at the first mismatch.
   */
  function LargestMatch(input: seq<Byte>, cursor: nat, offset: nat): (n: nat)
    requires cursor < |input| && 0 < offset <= cursor
    ensures IsMatch(input, cursor, offset, n)
    ensures n == MaxMatchLength(input, cursor) || input[cursor - offset + n] != input[cursor + n]
  {
    ExtendMatch(input, cursor, offset, 0)
  }

  /** No match from `offset` back is longer than LargestMatch. */
  lemma LargestMatchIsLongest(input: seq<Byte>, cursor: nat, offset: nat, m: nat)
    requires IsMatch(input, cursor, offset, m)
    ensures m <= LargestMatch(input, cursor, offset)
  {
    var n := LargestMatch(input, cursor, offset);
    if m > n {
      MatchAgrees(input, cursor, offset, m, n);
    }
  }

  /** A back-reference found by the matcher; length 0 means none. */
  datatype Match = Match(offset: nat, length: nat)

  /**
   * Best match among the candidates 1..limit symbols back, scanning from
   * the closest candidate and keeping a later one only when it is strictly
   * longer.
   */
  function SearchMatching(input: seq<Byte>, cursor: nat, limit: nat): (m: Match)
    requires cursor < |input| && limit <= cursor
    ensures m.offset == 0 <==> m.length == 0
    ensures m.offset <= limit
    ensures m.length > 0 ==> IsMatch(input, cursor, m.offset, m.length)
  {
    if limit == 0 then Match(0, 0)
    else
      var best := SearchMatching(input, cursor, limit - 1);
      var n := LargestMatch(input, cursor, limit);
      if n > best.length then Match(limit, n) else best
  }

  /**
   * No candidate in 1..limit matches longer than SearchMatching's result,
   * and none closer matches as long.
   */
  lemma {:induction false} SearchMatchingIsLongest(input: seq<Byte>, cursor: nat, limit: nat, o: nat, n: nat)
    requires cursor < |input| && limit <= cursor
    requires 1 <= o <= limit && IsMatch(input, cursor, o, n)
    ensures n <= SearchMatching(input, cursor, limit).length
    ensures o < SearchMatching(input, cursor, limit).offset ==> n < SearchMatching(input, cursor, limit).length
  {
    if o < limit {
      SearchMatchingIsLongest(input, cursor, limit - 1, o, n);
    } else {
      LargestMatchIsLongest(input, cursor, o, n);
    }
  }

  /**
   * The match for the current look-ahead buffer, searched over the whole
   * search buffer of `w`. It never reaches beyond the window nor past the
   * symbol kept for the codeword.
   */
  function MatchPattern(input: seq<Byte>, w: SearchWindow): (m: Match)
    requires Bounded(w) && w.cursor < |input|
    ensures m.offset == 0 <==> m.length == 0
    ensures m.offset <= w.cursor - w.start
    ensures m.offset <= SearchBufferSize && m.length <= LookAheadBufferSize
    ensures w.cursor + m.length < |input|
    ensures m.length > 0 ==> IsMatch(input, w.cursor, m.offset, m.length)
  {
    SearchMatching(input, w.cursor, w.cursor - w.start)
  }

  /**
   * MatchPattern's result is the longest match in the search window, and
   * the most recent one of that length.
   */
  lemma MatchPatternIsLongest(input: seq<Byte>, w: SearchWindow, o: nat, n: nat)
    requires Bounded(w) && w.cursor < |input|
    requires 1 <= o <= w.cursor - w.start && IsMatch(input, w.cursor, o, n)
    ensures n <= MatchPattern(input, w).length
    ensures o < MatchPattern(input, w).offset ==> n < MatchPattern(input, w).length
  {
    assert MatchPattern(input, w) == SearchMatching(input, w.cursor, w.cursor - w.start);
    SearchMatchingIsLongest(input, w.cursor, w.cursor - w.start, o, n);
  }

  /**
   * On "abababab" at cursor 2 the look-ahead buffer is "ababab"; the
   * matcher reports the longest match, five symbols from two back (running
   * into the look-ahead buffer), not the empty match from one back.
   */
  lemma AlternatingInputMatch()
    ensures MatchPattern([97, 98, 97, 98, 97, 98, 97, 98], SearchWindow(0, 2)) == Match(2, 5)
  {
    var input: seq<Byte> := [97, 98, 97, 98, 97, 98, 97, 98];
    AgreeSlices(input, 0, 2, 5);
    assert IsMatch(input, 2, 2, 5);
    LargestMatchIsLongest(input, 2, 2, 5);
  }
}

=== FILE: pipeline.dfy ===
/**
 * The whole compressor: LZ77 triples, then the two table headers and the
 * coded triples as one bit string; and the decoder that reverses it.
 */
module Pipeline {
  import opened Errors
  import opened BinString
  import opened Triples
  import opened Matcher
  import opened CodeTables
  import opened Framing
  import opened Encoder
  import opened Decoder

  /**
   * Code tables the compressor can write for `input`: prefix-free, with a
   * code for every offset and length the encoder emits.
   */
  predicate CompressibleTables(input: seq<Byte>, ot: CodeTable, lt: CodeTable) {
    && ValidCodeTable(ot) && ValidCodeTable(lt)
    && Covers(ot, lt, Encode(input))
  }

  /**
   * Tables whose headers also read back unchanged: every header field
   * within its width. The one-byte value field keeps offsets of 256 and
   * more out of this set.
   */
  predicate UsableTables(input: seq<Byte>, ot: CodeTable, lt: CodeTable) {
    && CompressibleTables(input, ot, lt)
    && HeaderEncodable(ot) && HeaderEncodable(lt)
  }

  /** The compressed bit string for `input`, given its offset and length code tables. */
  function CompressToFile(input: seq<Byte>, ot: CodeTable, lt: CodeTable): (bits: string)
    requires CompressibleTables(input, ot, lt)
    ensures IsBitString(bits)
    ensures |bits| >= 2 * CountBits + 10 * |Encode(input)|
    ensures bits[..CountBits] == IntToBinString(|ot|, CountBits)
    ensures |SerializeTable(ot)| + CountBits <= |bits|
    ensures bits[|SerializeTable(ot)|..][..CountBits] == IntToBinString(|lt|, CountBits)
  {
    var ts := Encode(input);
    var bits := SerializeTable(ot) + SerializeTable(lt) + SerializeTriples(ot, lt, ts);
    assert bits[..CountBits] == SerializeTable(ot)[..CountBits];
    assert bits[|SerializeTable(ot)|..][..CountBits] == SerializeTable(lt)[..CountBits];
    TableIsBits(ot);
    TableIsBits(lt);
    TriplesAreBits(ot, lt, ts);
    bits
  }

  /**
   * Decode a compressed bit string: the offset table, the length table,
   * then the triples up to the end of the bits, then the text. Either
   * header failing to parse is a corrupt header, whatever follows.
   */
  function Decode(bits: string): (r: Result<seq<Byte>>)
    ensures |bits| < 2 * CountBits ==> r == Failure(CorruptHeader)
    ensures ParseTable(bits).Failure? ==> r == Failure(CorruptHeader)
    ensures ParseTable(bits).Success? && ParseTable(ParseTable(bits).value.rest).Failure?
            ==> r == Failure(CorruptHeader)
  {
    var offsetHeader :- ParseTable(bits);
    var lengthHeader :- ParseTable(offsetHeader.rest);
    var ts :- ParseTriples(CodeToSymbol(offsetHeader.value), CodeToSymbol(lengthHeader.value), lengthHeader.rest);
    DecompressLZ77Code(ts)
  }

  /** Decoding the compressed file gives back exactly the input. */
  lemma CompressDecodeRoundTrip(input: seq<Byte>, ot: CodeTable, lt: CodeTable)
    requires UsableTables(input, ot, lt)
    ensures Decode(CompressToFile(input, ot, lt)) == Success(input)
  {
    var ts := Encode(input);
    var content := SerializeTriples(ot, lt, ts);
    var afterOffsets := SerializeTable(lt) + content;
    var bits := CompressToFile(input, ot, lt);
    Reassociate2(SerializeTable(ot), SerializeTable(lt), content);
    HeaderRoundTrip(ot, afterOffsets);
    HeaderRoundTrip(lt, content);
    ContentRoundTrip(ot, lt, ts);
    DecodeUnfold(bits, ot, afterOffsets, lt, content, ts);
    EncodeDecodeRoundTrip(input);
  }

  /**
   * The compressed bit string followed by fewer than ten padding bits, as
   * when it is rounded up to whole bytes, does not decode: the padding
   * cannot complete another triple.
   */
  lemma PaddedFileFails(input: seq<Byte>, ot: CodeTable, lt: CodeTable, pad: string)
    requires UsableTables(input, ot, lt)
    requires 0 < |pad| < 10
    ensures Decode(CompressToFile(input, ot, lt) + pad).Failure?
  {
    var headers := SerializeTable(ot) + SerializeTable(lt);
    var content := SerializeTriples(ot, lt, Encode(input));
    assert CompressToFile(input, ot, lt) == headers + content;
    Reassociate2(headers, content, pad);
    PaddedContentFails(ot, lt, Encode(input), pad);
    HeadersThenFailingContent(ot, lt, content + pad);
  }

  /** Two readable headers in front of content that does not parse do not decode. */
  lemma HeadersThenFailingContent(ot: CodeTable, lt: CodeTable, content: string)
    requires HeaderEncodable(ot) && HeaderEncodable(lt)
    requires ParseTriples(CodeToSymbol(ot), CodeToSymbol(lt), content).Failure?
    ensures Decode(SerializeTable(ot) + SerializeTable(lt) + content).Failure?
  {
    var afterOffsets := SerializeTable(lt) + content;
    Reassociate2(SerializeTable(ot), SerializeTable(lt), content);
    HeaderRoundTrip(ot, afterOffsets);
    HeaderRoundTrip(lt, content);
  }

  /** Decode of bits whose two headers and content parse as given. */
  lemma DecodeUnfold(bits: string, ot: CodeTable, afterOffsets: string, lt: CodeTable, content: string, ts: seq<Triple>)
    requires ParseTable(bits) == Success(Read(ot, afterOffsets))
    requires ParseTable(afterOffsets) == Success(Read(lt, content))
    requires ParseTriples(CodeToSymbol(ot), CodeToSymbol(lt), content) == Success(ts)
    ensures Decode(bits) == DecompressLZ77Code(ts)
  {
  }

  /** The empty input compresses to two empty headers and decodes to nothing. */
  lemma EmptyInput()
    ensures UsableTables([], [], [])
    ensures CompressToFile([], [], []) == IntToBinString(0, CountBits) + IntToBinString(0, CountBits)
    ensures Decode(CompressToFile([], [], [])) == Success([])
  {
    var empty := IntToBinString(0, CountBits);
    assert Encode([]) == [];
    assert SerializeTable([]) == empty + "" == empty;
    assert SerializeTriples([], [], []) == "";
    assert CompressToFile([], [], []) == empty + empty + "";
    CompressDecodeRoundTrip([], [], []);
  }

  lemma TableIsBits(t: CodeTable)
    requires ValidCodeTable(t)
    ensures IsBitString(SerializeTable(t))
  {
    EntriesAreBits(t);
  }

  lemma {:induction false} EntriesAreBits(t: CodeTable)
    requires ValidCodeTable(t)
    ensures IsBitString(SerializeEntries(t))
    decreases |t|
  {
    if |t| > 0 {
      assert ValidCodeTable(t[1..]) by {
        assert forall i :: 0 <= i < |t[1..]| ==> t[1..][i] == t[i + 1];
      }
      EntriesAreBits(t[1..]);
    }
  }

  lemma {:induction false} TriplesAreBits(ot: CodeTable, lt: CodeTable, ts: seq<Triple>)
    requires ValidCodeTable(ot) && ValidCodeTable(lt) && Covers(ot, lt, ts)
    ensures IsBitString(SerializeTriples(ot, lt, ts))
    ensures |SerializeTriples(ot, lt, ts)| >= 10 * |ts|
    decreases |ts|
  {
    if |ts| > 0 {
      TriplesAreBits(ot, lt, ts[1..]);
    }
  }
}

=== FILE: triples.dfy ===
/**
 * The unit the LZ77 encoder emits and the decoder consumes: copy `length`
 * symbols starting `offset` positions back, then emit `codeword`.
 */
module Triples {

  /** Largest offset a triple may carry: the search buffer's capacity. */
  const SearchBufferSize: nat := 2048

  /** Largest length a triple may carry: the look-ahead buffer's capacity. */
  const LookAheadBufferSize: nat := 255

  /** One symbol of the input: a byte of the file. */
  type Byte = b: nat | b < 256

  datatype Triple = Triple(offset: nat, length: nat, codeword: Byte)

  function Min(a: nat, b: nat): nat {
    if a <= b then a else b
  }

  /**
   * The bounds every emitted triple keeps: offset within the search
   * buffer, length within the look-ahead buffer, and a zero offset
   * exactly when nothing is copied.
   */
  predicate WellFormed(t: Triple) {
    && t.offset <= SearchBufferSize
    && t.length <= LookAheadBufferSize
    && (t.length == 0 <==> t.offset == 0)
  }

  /** Symbols a triple sequence stands for: each copies `length` and adds one. */
  function Consumed(ts: seq<Triple>): nat {
    if |ts| == 0 then 0 else ts[0].length + 1 + Consumed(ts[1..])
  }

  function OffsetsOf(ts: seq<Triple>): (xs: seq<nat>)
    ensures |xs| == |ts|
    ensures forall i :: 0 <= i < |ts| ==> xs[i] == ts[i].offset
  {
    if |ts| == 0 then [] else [ts[0].offset] + OffsetsOf(ts[1..])
  }

  function LengthsOf(ts: seq<Triple>): (xs: seq<nat>)
    ensures |xs| == |ts|
    ensures forall i :: 0 <= i < |ts| ==> xs[i] == ts[i].length
  {
    if |ts| == 0 then [] else [ts[0].length] + LengthsOf(ts[1..])
  }
}
